=== FILE: README.md ===
# Battleship game engine in Dafny

A model of the engine of a two-player console battleship game: the square
board and its four square states, ship placement with confirm-or-cancel, the
reading of typed squares such as `C:7`, shot resolution against the
defender's board and the attacker's enemy view, win detection, the start of a
new match, the turn hand-off recorded in the saved match, and the registry of
saved-session titles.

The game stores each board as an array of glyph strings. The model uses a
four-state enumeration instead (`Cells.Cell`: `Empty`, `Occupied`, `Hit`,
`Miss`) and fixes the glyph of each state in one place (`Cells`): on a
player's own board `" "`, `"█"`, `chalk.red("█")` and `"O"`; on the enemy view
`" "`, `"X"` and `"O"`. Lemmas there show that the game's glyph comparisons are
state comparisons. In particular a red block is not a block, which is the root
of the second finding below. This assumes chalk prints colour; see "Left out".

Modules, one per file:

- `Options`: `Option` and `Result`.
- `Cells`: square states and glyphs.
- `Boards`: the board (`board.ts`). This covers creation, marking and blanking
  a ship's squares, and the placement test, both as the game writes it and
  corrected.
- `Players`: ship and player records (`models/player.ts`), and fleet and player
  creation for a new match.
- `Coordinates`: validation and decoding of typed squares.
- `Placement`: the squares a ship covers from an anchor and an orientation, one
  prompt round, and the placement loop over the fleet. It also holds the setup
  invariant.
- `Combat`: shot resolution (as written and with the re-fire guard), win
  detection, the turn step and the saved-match order.
- `Titles`: the session-title registry (`index.ts`) and its update when a
  match ends.

Prompt answers become inputs of the model. These are `Placement.Attempt` (an
anchor square, an orientation and a confirm-or-cancel choice), the shot square
of `Combat.GameStep`, and `Titles.Answer`. Shots are required to land on the
board (`Combat.CanStep`). In the game a shot past the last row throws, while a
shot in a row of the board but past its last column is a silent miss (see
"Left out"). The placement test does model squares off the board, and its
throw is the first finding.

Three behaviours of the code worth knowing, all modelled as written:

- A miss writes `Miss` on the defender's own board as well as on the view.
- Cancelling a placement blanks the board but leaves the cancelled squares on
  the ship until a later round overwrites them.
- A ship may be cancelled and re-placed any number of times.

## Model

| member | source | states |
|---|---|---|
| Cells.OwnGlyphRoundTrip | src/game.ts:232-240 | Own-board glyphs and square states correspond one to one: decoding a state's glyph gives the state back, and a decoded glyph is that state's glyph |
| Cells.ViewGlyphRoundTrip | src/game.ts:233-239 | Enemy-view glyphs correspond one to one with the states the view can hold; an intact ship square has no view glyph |
| Cells.GlyphTestsAreStateTests | src/game.ts:220-234 | The test `=== '█'` holds exactly for intact ship squares, and `=== chalk.red('█')` exactly for hit squares; a hit square's glyph is not a block |
| Boards.CreateEmptyBoard | src/board.ts:12-22 | A new board has `size` rows of `size` squares, all blank |
| Boards.PlaceShip | src/board.ts:35-39 | Every square of the ship becomes occupied; every other square keeps its state |
| Boards.PlaceShipIdempotent | src/board.ts:35-39 | Placing the same squares twice gives the same board as placing them once |
| Boards.IsValidPlacement | src/board.ts:41-43 | Corrected placement test: accepts exactly when every square is on the board and blank, so an accepted placement never covers another ship |
| Boards.IsValidPlacementAsWritten | src/board.ts:41-43 | The game's own test, which reads each square before its bound: whenever it accepts, the corrected test accepts too; it throws only when some row lies past the board |
| Boards.AsWrittenAgreesWhenRowsFit | src/board.ts:41-43 | While every row lies on the board, the game's test returns exactly the corrected test's answer |
| Boards.RemoveShip | src/board.ts:45-49 | Every square of the ship becomes blank; every other square keeps its state |
| Boards.RemoveUndoesPlace | src/board.ts:35-49 | After an accepted placement, blanking the same squares restores the board exactly |
| Boards.EmptyBoardAcceptsExactlyInBounds | src/board.ts:18-43 | On a fresh board a placement is accepted exactly when all its squares are on the board |
| Players.NewFleet | src/game.ts:70-73 | One unplaced ship per entry of the size list, in order: the fleet's ship lengths are exactly the list |
| Players.NewPlayer | src/game.ts:66-74 | A new player has the given name, two blank boards of the chosen size and an unplaced fleet of the given lengths |
| Players.NewMatch | src/game.ts:47-84 | Both players get the same fleet: the size table's entry for the board size, or [4, 4] when there is none. Both start with blank boards of that size and every ship unplaced |
| Coordinates.ReadCoordinate | src/game.ts:170-184 | Text is accepted exactly when it matches `^[A-Ja-j]:[0-9]$`. An accepted square has the digit as its row and the upper-cased letter's distance from `A` as its column, both below 10 |
| Coordinates.ParseCoordinate | src/game.ts:179-184 | The row is the digit's value and the column is the letter's distance from `A` (or from `a`) |
| Coordinates.ParseInvertsFormat | src/game.ts:179-184 | Reading the canonical text of a square gives the square back |
| Coordinates.FormatInvertsParse | src/game.ts:179-184 | Writing out a read square gives the upper-cased input back |
| Coordinates.ParseIgnoresCase | src/game.ts:197-203 | Lower- and upper-case letters name the same column |
| Placement.ShipCoordinates | src/game.ts:130-138 | A ship of length n covers n squares starting at the anchor: all in the anchor's row when horizontal, all in its column when vertical |
| Placement.DerivedCoordinatesFormRun | src/game.ts:130-138 | The squares are a straight run: each one is a single step right (horizontal) or down (vertical) from the one before |
| Placement.RunIsDerived | src/game.ts:130-138 | Conversely, every non-empty straight run is the squares derived from its first square |
| Placement.RunFitsIffLastFits | src/game.ts:130-143 | A ship's squares all lie on the board exactly when its last square does |
| Placement.PlaceAttempt | src/game.ts:126-164 | One round: a refused placement changes neither board nor ship; a cancelled one leaves the board as it was and the ship unplaced but carrying the cancelled squares; a confirmed one records the squares, which were blank and are now occupied, and changes nothing else |
| Placement.PlaceShips | src/game.ts:121-167 | The loop places ships in fleet order, never unplaces an earlier ship, keeps every ship's length and the board's size |
| Placement.PlaceShipsAdvances | src/game.ts:125-165 | The loop moves to the next ship only through a confirmed answer: every ship it places carries the squares of some confirmed answer, ships past the one it stopped at are untouched, and an accepted and confirmed first answer places the current ship on exactly that answer's squares |
| Placement.PlaceShipsAppend | src/game.ts:124-166 | The loop over two runs of answers equals the loop over the first run continued, from where it stopped, over the second: no round ends the loop early |
| Placement.PlaceShipsRetries | src/game.ts:140-164 | A refused or cancelled round keeps the loop on the same ship: the next answer goes to that ship, on the board the round left |
| Placement.NewPlayerFleetLaid | src/game.ts:66-86 | A new player's board and unplaced fleet satisfy the setup invariant |
| Placement.PlaceAttemptKeepsFleetLaid | src/game.ts:140-164 | One round keeps the setup invariant. Placed ships have their full length in a straight run, are on the board and intact, and share no square. Every intact square belongs to a placed ship |
| Placement.ConfirmKeepsFleetLaid | src/game.ts:144-161 | Committing an accepted placement of the next ship (on blank squares, of its length, straight) extends the setup invariant to that ship |
| Placement.PlaceShipsKeepsFleetLaid | src/game.ts:124-166 | The whole placement loop keeps the setup invariant |
| Placement.FleetLaidIsConsistent | src/game.ts:121-167 | Once every ship is placed, board and fleet agree |
| Placement.SetupYieldsConsistentFleet | src/game.ts:66-90 | Completed setup of a new player leaves board and fleet in agreement, with every ship of its length, straight, and apart from the others |
| Placement.AsWrittenThrowsOnVerticalOverflow | src/board.ts:41-43 | On a 4×4 board a vertical ship of three at `C:2` makes the game's test throw, where the corrected test refuses; on a 5×5 board the corrected test accepts it |
| Combat.FireAsWritten | src/game.ts:232-244 | The game's own branch: an intact ship square becomes a hit on both boards, any other square a miss on both, and nothing else changes |
| Combat.Fire | src/game.ts:232-244 | A shot at a square already hit or missed is refused; otherwise it resolves as the game's branch does, no hit is undone and no ship square becomes a miss |
| Combat.FleetSunk | src/game.ts:221 | The fleet is sunk exactly when every square of every ship is hit |
| Combat.IsGameOver | src/game.ts:220-222 | A player has lost exactly when every square of every ship is hit; a fleet with no placed squares counts as lost |
| Combat.GameOverIffNoIntactSquare | src/game.ts:220-222 | While board and fleet agree, a player has lost exactly when no intact ship square is left on the board |
| Combat.FireKeepsConsistent | src/game.ts:232-244 | An accepted shot keeps board and fleet in agreement |
| Combat.FireKeepsSunk | src/game.ts:232-246 | A sunk fleet stays sunk under an accepted shot |
| Combat.MissStaysMissAsWritten | src/game.ts:232-240 | Under the game's own branch a missed square stays missed whatever is fired next |
| Combat.RefireLeavesFleetUnsinkableAsWritten | src/game.ts:232-240 | Under the game's own branch, firing again at a hit ship square turns it into a miss, and no later run of shots can sink that fleet |
| Combat.RefireExample | src/game.ts:232-246 | Worked case: hit A:0, fire at A:0 again, hit B:0. The game's branch leaves the fleet afloat; the guarded shot refuses the repeat, and B:0 then sinks the fleet |
| Combat.GameStep | src/game.ts:224-281 | The turn with the re-fire guard: a shot at a square already hit or missed is refused. Otherwise the turn changes only the target square of the defender's board and the attacker's view, ends in a win exactly when the defender's fleet is sunk, and else saves the match with the defender first |
| Combat.GameStepAsWritten | src/game.ts:224-281 | The game's own turn never refuses a shot: an intact ship square becomes a hit and any other square a miss, only that square changes on both boards, the turn is a win exactly when the defender's fleet is sunk, and else the match is saved with the defender first |
| Combat.GameStepAgreesAsWritten | src/game.ts:232-244 | The guarded turn gives the game's own result exactly when the target square is blank or intact; the two differ on every re-fire |
| Combat.TurnsAlternate | src/game.ts:275-278 | After a saved turn the defender moves next; after the defender's saved turn the original attacker moves next again |
| Combat.TurnsAlternateAsWritten | src/game.ts:246-278 | Under the game's own turn a match is saved exactly when the defender's fleet is not sunk, and saved turns alternate between the players whatever square is fired at |
| Titles.Register | src/index.ts:46-68 | A listed title with "new name" stores nothing. Otherwise the title ends the list, no new title but it appears, and a list of at most five stays at most five |
| Titles.RegisterKeepsOrder | src/index.ts:59-66 | The other titles keep their order. The result is the old list without the title, less only its oldest entry when the list would exceed five, then the title |
| Titles.RegisterKeepsTitlesUnique | src/index.ts:48-62 | A duplicate-free registry stays duplicate-free, so the title appears exactly once, at the end |
| Titles.RemoveFirstIsWithout | src/index.ts:48-60 | In a duplicate-free list, removing the entry at the title's first position removes the title altogether and keeps the rest in order |
| Titles.ChooseTitle | src/index.ts:39-72 | The prompt loop's first accepted answer decides the title and the stored list: every earlier answer was a listed title with "new name", and none is accepted exactly when all are such |
| Titles.RemoveTitle | src/game.ts:253-258 | Taking a listed title off the registry shortens it by one and, in a duplicate-free list, drops exactly that title |

## Findings

| source | as written | input that shows it | evidently intended | confidence | as-written member | corrected member |
|---|---|---|---|---|---|---|
| src/board.ts:42 | `isValidPlacement` reads `board[row][col]` before its bound conjunct, which also uses `<=`. A row past the board throws a TypeError instead of refusing the placement | 4×4 board, ship of length 3, anchor `C:2`, vertical: squares (2,2), (3,2), (4,2), and `board[4]` is undefined | Test `row < size && col < size` first, then refuse the placement so the player is asked again | not executed; high | Placement.AsWrittenThrowsOnVerticalOverflow | Boards.IsValidPlacement |
| src/game.ts:232-240 | While chalk prints colour, a shot at an already-hit square fails `=== '█'` (the square holds a red block) and takes the miss branch. The hit becomes `O` on both boards, and an `O` can never become a hit again | 4×4 board, one ship on A:0 and B:0; shots A:0, A:0, B:0: the fleet is never sunk | Refuse a shot at a square already hit or missed, and leave the boards unchanged | not executed; high | Combat.RefireLeavesFleetUnsinkableAsWritten | Combat.Fire |

`Placement.PlaceAttempt` uses the corrected placement test. `Combat.GameStep` uses the guarded shot; the game's unguarded turn is `Combat.GameStepAsWritten`. The second finding assumes chalk prints colour (see "Left out").

## Left out

- Prompts, console output, `printBoard` and colouring are user interface. Prompt answers are inputs of the model.
- The key-value store and its `get`/`set`/`delete` calls are outside the engine. The saved match is modelled as the `Combat.Snapshot` value; its JSON text and `continueGame`'s restore are not modelled.
- The `playGame` loop, its "show board" menu and the main-menu loop are interactive control flow. Their turn order is what `Combat.TurnsAlternate` states.
- Shots off the board are left out: `Combat.GameStep` and `Combat.GameStepAsWritten` require the target square to be on the board. The game's prompt accepts rows up to 9 and columns up to J whatever the board size. A row past the board makes the game throw. A row on the board with a column past it reads `undefined`, takes the miss branch, writes `O` past the end of both rows, uses up the turn and saves the match.
- Colour output is assumed on: `Cells.RedBlock` is `chalk.red('█')` with its ANSI escapes. With chalk's colour level at 0 (output not a terminal, `--no-color`) `chalk.red('█')` is the plain `'█'`. Then every intact ship square passes the win test at game.ts:221, so the match ends after the first shot, and a re-fire at a hit square counts as a hit again, so the second finding does not arise.
- Cells.OwnGlyphRoundTrip: the four own-board glyphs are one to one only while chalk prints colour; with colour off the hit glyph equals the intact-ship glyph.
- Cells.GlyphTestsAreStateTests: "a hit square's glyph is not a block", and with it "`=== chalk.red('█')` holds exactly for hit squares", assume chalk prints colour; with colour off intact ship squares pass that test too.
- Combat.GameStep: refuses a re-fire at a hit or missed square, where the game's turn takes the miss branch, uses up the turn and saves the match. The game's behaviour is `Combat.GameStepAsWritten`, and `Combat.GameStepAgreesAsWritten` states where the two differ.
- The board-size prompt validator is input plumbing.
- The ship-size table per board size is configuration in a file that is not part of this model. `Players.NewMatch` takes it as a parameter.
- Titles.RemoveTitle: requires the title to be listed. For a missing title the game would remove the entry at position -1, which is the last entry.
- Placement.PlaceShips: stops when the answers run out, so it describes every finite prefix of the unbounded prompt loop.

=== FILE: boards.dfy ===
/**
 The square game board: creation, marking and blanking a ship's squares, and
 the placement test.  Squares are addressed by `Coord`; every operation that
 writes a square asks for it to lie on the board, since the game's arrays have
 no squares outside it.
 */
module Boards {
  import opened Cells

  /** A zero-based square position: `row` is the digit and `col` the letter of "C:7". */
  datatype Coord = Coord(row: nat, col: nat)

  /** A board of `size` rows of `size` squares. */
  datatype Board = Board(size: nat, cells: seq<seq<Cell>>) {

    /** The rows and columns really are `size` long. */
    predicate Valid() {
      |cells| == size && forall r :: 0 <= r < |cells| ==> |cells[r]| == size
    }

    predicate InBounds(p: Coord) {
      p.row < size && p.col < size
    }

    /** State of the square at `p`. */
    function At(p: Coord): Cell
      requires Valid() && InBounds(p)
    {
      cells[p.row][p.col]
    }
  }

  /** Every position of `cs` lies on `b`. */
  predicate AllInBounds(b: Board, cs: seq<Coord>) {
    forall p :: p in cs ==> b.InBounds(p)
  }

  /** Two well-formed boards of one size that agree on every square are equal. */
  lemma BoardsEqual(a: Board, b: Board)
    requires a.Valid() && b.Valid() && a.size == b.size
    requires forall q :: a.InBounds(q) ==> a.At(q) == b.At(q)
    ensures a == b
  {
    forall r | 0 <= r < a.size
      ensures a.cells[r] == b.cells[r]
    {
      forall c | 0 <= c < a.size
        ensures a.cells[r][c] == b.cells[r][c]
      {
        assert a.At(Coord(r, c)) == b.At(Coord(r, c));
      }
    }
  }

  /** A fresh board: `size` rows of `size` blank squares. */
  function CreateEmptyBoard(size: nat): (b: Board)
    ensures b.Valid() && b.size == size
    ensures forall p :: b.InBounds(p) ==> b.At(p) == Empty
  {
    Board(size, seq(size, _ => seq(size, _ => Empty)))
  }

  /** A non-empty list of squares holds exactly its first square and those of its tail. */
  lemma HeadAndTail(cs: seq<Coord>)
    requires cs != []
    ensures forall q :: q in cs <==> q == cs[0] || q in cs[1..]
  {
    assert cs == [cs[0]] + cs[1..];
  }

  /** The board with the square at `p` set to `v`. */
  function SetCell(b: Board, p: Coord, v: Cell): (r: Board)
    requires b.Valid() && b.InBounds(p)
    ensures r.Valid() && r.size == b.size
    ensures r.At(p) == v
    ensures forall q :: r.InBounds(q) && q != p ==> r.At(q) == b.At(q)
  {
    b.(cells := b.cells[p.row := b.cells[p.row][p.col := v]])
  }

  /** The board with every square of `cs`, in order, set to `v`. */
  function Paint(b: Board, cs: seq<Coord>, v: Cell): (r: Board)
    requires b.Valid() && AllInBounds(b, cs)
    ensures r.Valid() && r.size == b.size
    ensures forall q :: r.InBounds(q) ==> r.At(q) == if q in cs then v else b.At(q)
    decreases |cs|
  {
    if cs == [] then b
    else
      HeadAndTail(cs);
      Paint(SetCell(b, cs[0], v), cs[1..], v)
  }

  /** Marks a ship's squares as occupied: each of them becomes `Occupied`, every
      other square keeps its state. */
  function PlaceShip(b: Board, cs: seq<Coord>): (r: Board)
    requires b.Valid() && AllInBounds(b, cs)
    ensures r.Valid() && r.size == b.size
    ensures forall q :: q in cs ==> r.At(q) == Occupied
    ensures forall q :: r.InBounds(q) && q !in cs ==> r.At(q) == b.At(q)
  {
    Paint(b, cs, Occupied)
  }

  /** Blanks a ship's squares: each of them becomes `Empty`, every other square
      keeps its state. */
  function RemoveShip(b: Board, cs: seq<Coord>): (r: Board)
    requires b.Valid() && AllInBounds(b, cs)
    ensures r.Valid() && r.size == b.size
    ensures forall q :: q in cs ==> r.At(q) == Empty
    ensures forall q :: r.InBounds(q) && q !in cs ==> r.At(q) == b.At(q)
  {
    Paint(b, cs, Empty)
  }

  /** The placement test, with the bound checked before the square is read: a
      ship may go on `b` exactly when each of its squares is on the board and blank. */
  function IsValidPlacement(b: Board, cs: seq<Coord>): (r: bool)
    requires b.Valid()
    ensures r <==> forall p :: p in cs ==> b.InBounds(p) && b.At(p) == Empty
    ensures r ==> AllInBounds(b, cs)
  {
    if cs == [] then true
    else
      HeadAndTail(cs);
      b.InBounds(cs[0]) && b.At(cs[0]) == Empty && IsValidPlacement(b, cs[1..])
  }

  /** Placing a ship twice on the same squares gives the board of placing it once. */
  lemma PlaceShipIdempotent(b: Board, cs: seq<Coord>)
    requires b.Valid() && AllInBounds(b, cs)
    ensures PlaceShip(PlaceShip(b, cs), cs) == PlaceShip(b, cs)
  {
    var once := PlaceShip(b, cs);
    BoardsEqual(PlaceShip(once, cs), once);
  }

  /** Cancelling an accepted placement restores the board exactly. */
  lemma RemoveUndoesPlace(b: Board, cs: seq<Coord>)
    requires b.Valid() && IsValidPlacement(b, cs)
    ensures RemoveShip(PlaceShip(b, cs), cs) == b
  {
    BoardsEqual(RemoveShip(PlaceShip(b, cs), cs), b);
  }

  /** On a fresh board a ship may go anywhere on the board, and nowhere else. */
  lemma EmptyBoardAcceptsExactlyInBounds(size: nat, cs: seq<Coord>)
    ensures IsValidPlacement(CreateEmptyBoard(size), cs) <==> AllInBounds(CreateEmptyBoard(size), cs)
  {
  }

  // ---------------------------------------------------------------------------
  // The placement test as the game writes it.

  /** Outcome of evaluating a JavaScript expression: a value, or a thrown TypeError. */
  datatype Evaluation<+T> = Returned(value: T) | Threw

  /** The placement test in the game's own evaluation order: for each position in
      turn, the square is read first and the `<=` bound conjunct only afterwards,
      and the scan stops at the first failing position.  Reading a column past the
      end of an existing row yields `undefined`, which is not a blank, so the test
      answers false; reading any column of a row past the last one throws. */
  function IsValidPlacementAsWritten(b: Board, cs: seq<Coord>): (r: Evaluation<bool>)
    requires b.Valid()
    ensures r.Returned? && r.value ==> IsValidPlacement(b, cs)
    ensures r.Threw? ==> exists p :: p in cs && p.row >= b.size
  {
    if cs == [] then Returned(true)
    else
      var p := cs[0];
      HeadAndTail(cs);
      if p.row >= |b.cells| then Threw
      else if p.col >= |b.cells[p.row]| then Returned(false)
      else if b.cells[p.row][p.col] == Empty && p.row <= b.size && p.col <= b.size then
        IsValidPlacementAsWritten(b, cs[1..])
      else Returned(false)
  }

  /** While every row lies on the board the game's test and the corrected test agree. */
  lemma {:induction false} AsWrittenAgreesWhenRowsFit(b: Board, cs: seq<Coord>)
    requires b.Valid()
    requires forall p :: p in cs ==> p.row < b.size
    ensures IsValidPlacementAsWritten(b, cs) == Returned(IsValidPlacement(b, cs))
  {
    if cs != [] {
      assert cs[0] in cs;
      forall p | p in cs[1..] ensures p.row < b.size {
        assert p in cs;
      }
      AsWrittenAgreesWhenRowsFit(b, cs[1..]);
    }
  }
}

=== FILE: cells.dfy ===
/**
 The four states of a board square, and the glyph strings the game stores
 for them.  The game keeps its grids as arrays of strings and decides hits,
 misses and wins by comparing glyphs; this module fixes, once, which glyph
 stands for which state, so that the rest of the model can compare states.
 */
module Cells {
  import opened Options

  /** State of one square. */
  datatype Cell = Empty | Occupied | Hit | Miss

  /** A blank square. */
  const Blank: string := " "
  /** An intact ship square on its owner's board. */
  const Block: string := "█"
  /** `chalk.red('█')` with colour output on: the block between the ANSI red and
      default-foreground escapes.  With colour off chalk returns the plain block. */
  const RedBlock: string := "\U{1B}[31m█\U{1B}[39m"
  /** A shot that found water (written to both boards). */
  const Ring: string := "O"
  /** A shot that found a ship, as the attacker's enemy view shows it. */
  const Cross: string := "X"

  /** Glyph the game writes for a state on a player's own board. */
  function OwnGlyph(c: Cell): string {
    match c
    case Empty => Blank
    case Occupied => Block
    case Hit => RedBlock
    case Miss => Ring
  }

  /** Reading of an own-board glyph; `None` for a string the game never writes there. */
  function OwnCell(g: string): Option<Cell> {
    if g == Blank then Some(Empty)
    else if g == Block then Some(Occupied)
    else if g == RedBlock then Some(Hit)
    else if g == Ring then Some(Miss)
    else None
  }

  /** Glyph the game writes for a state on the attacker's enemy view.  The view
      never shows an intact ship square, so `Occupied` has no glyph there. */
  function ViewGlyph(c: Cell): Option<string> {
    match c
    case Empty => Some(Blank)
    case Occupied => None
    case Hit => Some(Cross)
    case Miss => Some(Ring)
  }

  /** Reading of an enemy-view glyph. */
  function ViewCell(g: string): Option<Cell> {
    if g == Blank then Some(Empty)
    else if g == Cross then Some(Hit)
    else if g == Ring then Some(Miss)
    else None
  }

  /** The own-board glyphs and states are in one-to-one correspondence. */
  lemma OwnGlyphRoundTrip(c: Cell, g: string)
    ensures OwnCell(OwnGlyph(c)) == Some(c)
    ensures OwnCell(g) == Some(c) ==> OwnGlyph(c) == g
  {
  }

  /** The enemy-view glyphs and the states the view can hold correspond one to one. */
  lemma ViewGlyphRoundTrip(c: Cell, g: string)
    ensures c != Occupied <==> ViewGlyph(c).Some?
    ensures ViewGlyph(c).Some? ==> ViewCell(ViewGlyph(c).value) == Some(c)
    ensures ViewCell(g) == Some(c) ==> ViewGlyph(c) == Some(g)
  {
  }

  /** The glyph tests the game makes are state tests: `=== '█'` picks out exactly
      the intact ship squares (a red block is a different string), and
      `=== chalk.red('█')` picks out exactly the hit squares. */
  lemma GlyphTestsAreStateTests(c: Cell)
    ensures OwnGlyph(c) == Block <==> c == Occupied
    ensures OwnGlyph(c) == RedBlock <==> c == Hit
    ensures OwnGlyph(c) == Blank <==> c == Empty
    ensures OwnGlyph(Hit) != Block
  {
  }
}

=== FILE: combat.dfy ===
/**
 Play: resolving one shot against the defender's board and the attacker's
 view of it, deciding whether the defender's fleet is sunk, and the turn
 step that either ends the match or saves it with the defender to move next.
 */
module Combat {
  import opened Options
  import opened Cells
  import opened Boards
  import opened Players

  datatype ShotOutcome = Struck | Missed

  /** The attacker's view and the defender's board after a shot. */
  datatype Shot = Shot(view: Board, target: Board, outcome: ShotOutcome)

  datatype FireError = AlreadyTargeted

  /** Preconditions of a shot at `p`: two boards of one size with `p` on them. */
  predicate CanFire(view: Board, target: Board, p: Coord) {
    view.Valid() && target.Valid() && view.size == target.size && target.InBounds(p)
  }

  /** The hit-or-miss branch of a turn as the game writes it: an intact ship square
      becomes a hit on both boards; any other square, a hit one included, becomes
      a miss on both.  Nothing else changes. */
  function FireAsWritten(view: Board, target: Board, p: Coord): (r: Shot)
    requires CanFire(view, target, p)
    ensures CanFire(r.view, r.target, p) && r.target.size == target.size
    ensures r.outcome == Struck <==> target.At(p) == Occupied
    ensures target.At(p) == Occupied ==> r.target.At(p) == Hit && r.view.At(p) == Hit
    ensures target.At(p) != Occupied ==> r.target.At(p) == Miss && r.view.At(p) == Miss
    ensures forall q :: target.InBounds(q) && q != p ==>
      r.target.At(q) == target.At(q) && r.view.At(q) == view.At(q)
  {
    if target.At(p) == Occupied then
      Shot(SetCell(view, p, Hit), SetCell(target, p, Hit), Struck)
    else
      Shot(SetCell(view, p, Miss), SetCell(target, p, Miss), Missed)
  }

  /** A shot with the re-fire guard: a square already hit or missed is refused and
      the player is asked again; otherwise the shot resolves as above.  No hit is
      ever undone and no ship square ever becomes a miss. */
  function Fire(view: Board, target: Board, p: Coord): (r: Result<Shot, FireError>)
    requires CanFire(view, target, p)
    ensures r.Err? <==> target.At(p) == Hit || target.At(p) == Miss
    ensures r.Ok? ==> r.value == FireAsWritten(view, target, p)
    ensures r.Ok? ==> forall q :: target.InBounds(q) && target.At(q) == Hit ==> r.value.target.At(q) == Hit
    ensures r.Ok? ==> forall q :: target.InBounds(q) && target.At(q) in {Occupied, Hit} ==>
      r.value.target.At(q) in {Occupied, Hit}
  {
    if target.At(p) == Hit || target.At(p) == Miss then Err(AlreadyTargeted)
    else Ok(FireAsWritten(view, target, p))
  }

  /** Every square of `cs` is hit. */
  function ShipSunk(b: Board, cs: seq<Coord>): (r: bool)
    requires b.Valid() && AllInBounds(b, cs)
    ensures r <==> forall q :: q in cs ==> b.At(q) == Hit
  {
    if cs == [] then true
    else
      HeadAndTail(cs);
      b.At(cs[0]) == Hit && ShipSunk(b, cs[1..])
  }

  /** Every ship of the fleet is sunk. */
  function FleetSunk(b: Board, ships: seq<Ship>): (r: bool)
    requires b.Valid() && FleetInBounds(b, ships)
    ensures r <==> forall i, q :: 0 <= i < |ships| && q in ships[i].coordinates ==> b.At(q) == Hit
  {
    if ships == [] then true
    else
      assert AllInBounds(b, ships[0].coordinates);
      assert FleetInBounds(b, ships[1..]) by {
        forall i, q | 0 <= i < |ships| - 1 && q in ships[1..][i].coordinates ensures b.InBounds(q) {
          assert ships[1..][i] == ships[i + 1];
        }
      }
      var rest := FleetSunk(b, ships[1..]);
      assert rest <==> forall i, q :: 1 <= i < |ships| && q in ships[i].coordinates ==> b.At(q) == Hit by {
        forall i | 1 <= i < |ships| ensures ships[1..][i - 1] == ships[i] { }
      }
      ShipSunk(b, ships[0].coordinates) && rest
  }

  /** The player has lost: every square of every ship is hit.  A fleet with no
      placed squares counts as lost. */
  function IsGameOver(p: Player): (r: bool)
    requires WellFormed(p)
    ensures r <==> forall i, q :: 0 <= i < |p.ships| && q in p.ships[i].coordinates ==> p.board.At(q) == Hit
    ensures (forall i :: 0 <= i < |p.ships| ==> p.ships[i].coordinates == []) ==> r
  {
    FleetSunk(p.board, p.ships)
  }

  /** While board and fleet agree, the fleet is sunk exactly when no intact ship
      square is left anywhere on the board. */
  lemma GameOverIffNoIntactSquare(p: Player)
    requires WellFormed(p) && Consistent(p.board, p.ships)
    ensures IsGameOver(p) <==> forall q :: p.board.InBounds(q) ==> p.board.At(q) != Occupied
  {
  }

  /** An accepted shot keeps board and fleet in agreement. */
  lemma FireKeepsConsistent(view: Board, target: Board, ships: seq<Ship>, p: Coord)
    requires CanFire(view, target, p) && Consistent(target, ships)
    ensures Fire(view, target, p).Ok? ==> Consistent(Fire(view, target, p).value.target, ships)
  {
    var r := Fire(view, target, p);
    if r.Ok? {
      var t := r.value.target;
      FleetInBoundsBySize(target, t, ships);
      forall q | t.InBounds(q) && t.At(q) == Occupied
        ensures exists i :: 0 <= i < |ships| && q in ships[i].coordinates
      {
        assert q != p;
        assert target.At(q) == Occupied;
      }
    }
  }

  /** A sunk fleet stays sunk under an accepted shot. */
  lemma FireKeepsSunk(view: Board, target: Board, ships: seq<Ship>, p: Coord)
    requires CanFire(view, target, p) && FleetInBounds(target, ships) && FleetSunk(target, ships)
    ensures Fire(view, target, p).Ok? ==>
      FleetInBounds(Fire(view, target, p).value.target, ships) && FleetSunk(Fire(view, target, p).value.target, ships)
  {
    var r := Fire(view, target, p);
    if r.Ok? {
      FleetInBoundsBySize(target, r.value.target, ships);
    }
  }

  // ---------------------------------------------------------------------------
  // Re-firing as the game writes it.

  /** A run of shots resolved by the game's own branch. */
  function VolleyAsWritten(view: Board, target: Board, shots: seq<Coord>): (r: (Board, Board))
    requires view.Valid() && target.Valid() && view.size == target.size
    requires AllInBounds(target, shots)
    ensures r.0.Valid() && r.1.Valid() && r.0.size == view.size && r.1.size == target.size
    decreases |shots|
  {
    if shots == [] then (view, target)
    else
      assert shots[0] in shots;
      var s := FireAsWritten(view, target, shots[0]);
      assert AllInBounds(s.target, shots[1..]) by {
        forall q | q in shots[1..] ensures s.target.InBounds(q) { assert q in shots; }
      }
      VolleyAsWritten(s.view, s.target, shots[1..])
  }

  /** Under the game's own branch a missed square stays missed, whatever is fired next. */
  lemma {:induction false} MissStaysMissAsWritten(view: Board, target: Board, shots: seq<Coord>, q: Coord)
    requires view.Valid() && target.Valid() && view.size == target.size
    requires AllInBounds(target, shots) && target.InBounds(q) && target.At(q) == Miss
    ensures VolleyAsWritten(view, target, shots).1.At(q) == Miss
    decreases |shots|
  {
    if shots != [] {
      assert shots[0] in shots;
      var s := FireAsWritten(view, target, shots[0]);
      assert AllInBounds(s.target, shots[1..]) by {
        forall x | x in shots[1..] ensures s.target.InBounds(x) { assert x in shots; }
      }
      MissStaysMissAsWritten(s.view, s.target, shots[1..], q);
    }
  }

  /** Under the game's own branch, firing again at a hit ship square turns it into a
      miss, after which no run of shots can sink that fleet. */
  lemma RefireLeavesFleetUnsinkableAsWritten(view: Board, target: Board, ships: seq<Ship>, p: Coord, shots: seq<Coord>)
    requires CanFire(view, target, p) && FleetInBounds(target, ships)
    requires target.At(p) == Hit && exists i :: 0 <= i < |ships| && p in ships[i].coordinates
    requires AllInBounds(target, shots)
    ensures var s := FireAsWritten(view, target, p);
      && s.target.At(p) == Miss
      && FleetInBounds(VolleyAsWritten(s.view, s.target, shots).1, ships)
      && !FleetSunk(VolleyAsWritten(s.view, s.target, shots).1, ships)
  {
    var s := FireAsWritten(view, target, p);
    MissStaysMissAsWritten(s.view, s.target, shots, p);
    FleetInBoundsBySize(target, VolleyAsWritten(s.view, s.target, shots).1, ships);
  }

  /** The source's re-fire on a 4×4 board with one two-square ship at A:0 and B:0:
      hit A:0, fire at A:0 again, then hit B:0.  The game's own branch leaves the
      fleet afloat for ever; with the re-fire guard the second shot at A:0 is
      refused and the shot at B:0 sinks the fleet. */
  lemma RefireExample()
    ensures var ships := [Ship(2, [Coord(0, 0), Coord(0, 1)])];
      var b0 := PlaceShip(CreateEmptyBoard(4), [Coord(0, 0), Coord(0, 1)]);
      var v0 := CreateEmptyBoard(4);
      var s1 := FireAsWritten(v0, b0, Coord(0, 0));
      var s2 := FireAsWritten(s1.view, s1.target, Coord(0, 0));
      var s3 := FireAsWritten(s2.view, s2.target, Coord(0, 1));
      && s1.outcome == Struck && s2.outcome == Missed && s3.outcome == Struck
      && !FleetSunk(s3.target, ships)
      && Fire(s1.view, s1.target, Coord(0, 0)) == Err(AlreadyTargeted)
      && FleetSunk(FireAsWritten(s1.view, s1.target, Coord(0, 1)).target, ships)
  {
    var ships := [Ship(2, [Coord(0, 0), Coord(0, 1)])];
    var b0 := PlaceShip(CreateEmptyBoard(4), [Coord(0, 0), Coord(0, 1)]);
    var v0 := CreateEmptyBoard(4);
    var s1 := FireAsWritten(v0, b0, Coord(0, 0));
    var s2 := FireAsWritten(s1.view, s1.target, Coord(0, 0));
    var s3 := FireAsWritten(s2.view, s2.target, Coord(0, 1));
    assert Coord(0, 0) in ships[0].coordinates;
    assert s3.target.At(Coord(0, 0)) == Miss;
    var t := FireAsWritten(s1.view, s1.target, Coord(0, 1)).target;
    assert forall q :: q in ships[0].coordinates ==> q == Coord(0, 0) || q == Coord(0, 1);
    assert t.At(Coord(0, 0)) == Hit && t.At(Coord(0, 1)) == Hit;
  }

  // ---------------------------------------------------------------------------
  // The turn step.

  /** The state saved after a turn that did not end the match, in the order the
      next session resumes it: `player1` moves first. */
  datatype Snapshot = Snapshot(player1: Player, player2: Player)

  /** What a turn leads to: a refused shot (ask again), a win, or a saved match. */
  datatype StepResult = Rejected(error: FireError) | Won(winner: Player, loser: Player) | Saved(state: Snapshot)

  /** Preconditions of a turn: well-formed players on boards of one size, target on the board. */
  predicate CanStep(attacker: Player, defender: Player, p: Coord) {
    && WellFormed(attacker) && WellFormed(defender)
    && attacker.enemyBoard.size == defender.board.size
    && defender.board.InBounds(p)
  }

  /** The attacker and defender after an accepted shot. */
  function AfterShot(r: StepResult): (Player, Player)
    requires !r.Rejected?
  {
    if r.Won? then (r.winner, r.loser) else (r.state.player2, r.state.player1)
  }

  /** One turn: the attacker fires at `p`.  The shot changes only square `p` of the
      attacker's enemy view and of the defender's board.  If the defender's fleet
      is then sunk the attacker wins; otherwise the match is saved with the
      defender first, so the defender moves next when play goes on or resumes. */
  function GameStep(attacker: Player, defender: Player, p: Coord): (r: StepResult)
    requires CanStep(attacker, defender, p)
    ensures r.Rejected? <==> defender.board.At(p) == Hit || defender.board.At(p) == Miss
    ensures !r.Rejected? ==>
      var (a, d) := AfterShot(r);
      && WellFormed(a) && WellFormed(d) && a.enemyBoard.size == d.board.size
      && a == attacker.(enemyBoard := a.enemyBoard)
      && d == defender.(board := d.board)
      && d.board.At(p) == (if defender.board.At(p) == Occupied then Hit else Miss)
      && a.enemyBoard.At(p) == d.board.At(p)
      && (forall q :: d.board.InBounds(q) && q != p ==>
            d.board.At(q) == defender.board.At(q) && a.enemyBoard.At(q) == attacker.enemyBoard.At(q))
      && (r.Won? <==> IsGameOver(d))
  {
    match Fire(attacker.enemyBoard, defender.board, p)
    case Err(e) => Rejected(e)
    case Ok(s) =>
      var a := attacker.(enemyBoard := s.view);
      var d := defender.(board := s.target);
      FleetInBoundsBySize(defender.board, d.board, d.ships);
      if IsGameOver(d) then Won(a, d) else Saved(Snapshot(d, a))
  }

  /** One turn as the game writes it: the shot is never refused.  An intact ship
      square becomes a hit and any other square, a hit or missed one included, a
      miss; the turn is used up either way.  If the defender's fleet is then sunk
      the attacker wins; otherwise the match is saved with the defender first. */
  function GameStepAsWritten(attacker: Player, defender: Player, p: Coord): (r: StepResult)
    requires CanStep(attacker, defender, p)
    ensures !r.Rejected?
    ensures var (a, d) := AfterShot(r);
      && WellFormed(a) && WellFormed(d) && a.enemyBoard.size == d.board.size
      && a == attacker.(enemyBoard := a.enemyBoard)
      && d == defender.(board := d.board)
      && d.board.At(p) == (if defender.board.At(p) == Occupied then Hit else Miss)
      && a.enemyBoard.At(p) == d.board.At(p)
      && (forall q :: d.board.InBounds(q) && q != p ==>
            d.board.At(q) == defender.board.At(q) && a.enemyBoard.At(q) == attacker.enemyBoard.At(q))
      && (r.Won? <==> IsGameOver(d))
  {
    var s := FireAsWritten(attacker.enemyBoard, defender.board, p);
    var a := attacker.(enemyBoard := s.view);
    var d := defender.(board := s.target);
    FleetInBoundsBySize(defender.board, d.board, d.ships);
    if IsGameOver(d) then Won(a, d) else Saved(Snapshot(d, a))
  }

  /** The guarded turn and the game's turn agree on every shot at a blank or
      intact square, and differ exactly on the re-fires the guard refuses. */
  lemma GameStepAgreesAsWritten(attacker: Player, defender: Player, p: Coord)
    requires CanStep(attacker, defender, p)
    ensures defender.board.At(p) in {Empty, Occupied} <==>
      GameStep(attacker, defender, p) == GameStepAsWritten(attacker, defender, p)
  {
  }

  /** Under the game's own turn, turns alternate unconditionally: every turn that
      does not end the match saves the defender first, and the defender's next
      saved turn puts the original attacker first again. */
  lemma TurnsAlternateAsWritten(attacker: Player, defender: Player, p: Coord, q: Coord)
    requires CanStep(attacker, defender, p)
    ensures var r := GameStepAsWritten(attacker, defender, p);
      r.Saved? <==> !IsGameOver(AfterShot(r).1)
    ensures GameStepAsWritten(attacker, defender, p).Saved? ==>
      var s := GameStepAsWritten(attacker, defender, p).state;
      && s.player1.name == defender.name && s.player2.name == attacker.name
      && s.player1.ships == defender.ships && s.player2.ships == attacker.ships
      && (s.player2.board.InBounds(q) ==>
            && CanStep(s.player1, s.player2, q)
            && (GameStepAsWritten(s.player1, s.player2, q).Saved? ==>
                  var s2 := GameStepAsWritten(s.player1, s.player2, q).state;
                  s2.player1.name == attacker.name && s2.player2.name == defender.name))
  {
  }

  /** Turns alternate: after a saved turn the defender is first in the snapshot, and
      after the defender's own saved turn the original attacker is first again. */
  lemma TurnsAlternate(attacker: Player, defender: Player, p: Coord, q: Coord)
    requires CanStep(attacker, defender, p) && GameStep(attacker, defender, p).Saved?
    ensures var s := GameStep(attacker, defender, p).state;
      && s.player1.name == defender.name && s.player2.name == attacker.name
      && s.player1.ships == defender.ships && s.player2.ships == attacker.ships
      && (s.player2.board.InBounds(q) ==>
            && CanStep(s.player1, s.player2, q)
            && (GameStep(s.player1, s.player2, q).Saved? ==>
                  var s2 := GameStep(s.player1, s.player2, q).state;
                  s2.player1.name == attacker.name && s2.player2.name == defender.name))
  {
  }
}

=== FILE: coordinates.dfy ===
/**
 Reading a square from the text a player types, such as "C:7" or "c:7": a
 column letter from A to J in either case, a colon, and a row digit.  Text of
 any other shape is refused by the prompt's validation and asked for again.
 */
module Coordinates {
  import opened Options
  import opened Boards

  predicate IsColumnLetter(ch: char) {
    'A' <= ch <= 'J' || 'a' <= ch <= 'j'
  }

  predicate IsDigit(ch: char) {
    '0' <= ch <= '9'
  }

  /** The prompt's validation pattern `^[A-Ja-j]:[0-9]$`. */
  predicate MatchesPattern(s: string) {
    |s| == 3 && IsColumnLetter(s[0]) && s[1] == ':' && IsDigit(s[2])
  }

  /** ASCII upper-casing of one character. */
  function Upper(ch: char): char {
    if 'a' <= ch <= 'z' then (ch as int - 32) as char else ch
  }

  /** Upper-casing of a whole input line, character by character. */
  function UpperText(s: string): (u: string)
    ensures |u| == |s|
  {
    seq(|s|, i requires 0 <= i < |s| => Upper(s[i]))
  }

  /** Decodes validated text: the row is the digit, the column is the upper-cased
      letter's distance from 'A'. */
  function ParseCoordinate(s: string): (c: Coord)
    requires MatchesPattern(s)
    ensures c.row < 10 && c.col < 10
    ensures c.row == s[2] as int - '0' as int
    ensures 'A' <= s[0] <= 'J' ==> c.col == s[0] as int - 'A' as int
    ensures 'a' <= s[0] <= 'j' ==> c.col == s[0] as int - 'a' as int
  {
    var u := UpperText(s);
    Coord(u[2] as int - '0' as int, u[0] as int - 'A' as int)
  }

  /** One answer to the coordinate prompt: `None` when validation refuses it and the
      prompt asks again. */
  function ReadCoordinate(s: string): (r: Option<Coord>)
    ensures r.Some? <==> MatchesPattern(s)
    ensures r.Some? ==> r.value.row < 10 && r.value.col < 10
    ensures r.Some? ==>
      r.value.row == s[2] as int - '0' as int && r.value.col == Upper(s[0]) as int - 'A' as int
  {
    if MatchesPattern(s) then Some(ParseCoordinate(s)) else None
  }

  /** The canonical text of a square: upper-case letter, colon, digit. */
  function FormatCoordinate(c: Coord): (s: string)
    requires c.row < 10 && c.col < 10
    ensures MatchesPattern(s)
  {
    [('A' as int + c.col) as char, ':', ('0' as int + c.row) as char]
  }

  /** Reading the canonical text of a square gives that square back. */
  lemma ParseInvertsFormat(c: Coord)
    requires c.row < 10 && c.col < 10
    ensures ParseCoordinate(FormatCoordinate(c)) == c
  {
  }

  /** Writing out a parsed square gives the upper-cased input back, so no two
      different upper-case texts name the same square. */
  lemma FormatInvertsParse(s: string)
    requires MatchesPattern(s)
    ensures FormatCoordinate(ParseCoordinate(s)) == UpperText(s)
  {
  }

  /** Lower- and upper-case letters name the same column. */
  lemma ParseIgnoresCase(s: string)
    requires MatchesPattern(s)
    ensures MatchesPattern(UpperText(s))
    ensures ParseCoordinate(UpperText(s)) == ParseCoordinate(s)
  {
  }
}

=== FILE: options.dfy ===
/** Small failure-carrying datatypes shared by the battleship model. */
module Options {

  /** A value that may be absent. */
  datatype Option<+T> = None | Some(value: T)

  /** Either a value or the error that prevented computing it. */
  datatype Result<+T, +E> = Ok(value: T) | Err(error: E)
}

=== FILE: placement.dfy ===
/**
 Setting up a fleet: turning an anchor square and an orientation into a
 ship's squares, testing and committing a placement, the confirm-or-cancel
 choice after each accepted placement, and the loop over the whole fleet.
 Each prompt answer is an input of the model (`Attempt`).
 */
module Placement {
  import opened Cells
  import opened Boards
  import opened Players
  import opened Coordinates

  datatype Orientation = Horizontal | Vertical

  /** The square one step further along `o`. */
  function Next(p: Coord, o: Orientation): Coord {
    match o
    case Horizontal => Coord(p.row, p.col + 1)
    case Vertical => Coord(p.row + 1, p.col)
  }

  /** A straight run along `o`: each square is the step after the one before it. */
  predicate IsRun(cs: seq<Coord>, o: Orientation)
    decreases |cs|
  {
    |cs| <= 1 || (cs[1] == Next(cs[0], o) && IsRun(cs[1..], o))
  }

  /** A run along either axis. */
  predicate IsStraight(cs: seq<Coord>) {
    IsRun(cs, Horizontal) || IsRun(cs, Vertical)
  }

  /** The squares of a ship of `size` anchored at `start`: to the right of it when
      horizontal, below it when vertical. */
  function ShipCoordinates(start: Coord, o: Orientation, size: nat): (cs: seq<Coord>)
    ensures |cs| == size
    ensures size > 0 ==> cs[0] == start
    ensures o == Horizontal ==> forall p :: p in cs ==> p.row == start.row
    ensures o == Vertical ==> forall p :: p in cs ==> p.col == start.col
  {
    seq(size, i requires 0 <= i < size =>
      if o == Horizontal then Coord(start.row, start.col + i) else Coord(start.row + i, start.col))
  }

  /** Derived squares form a straight run from the anchor. */
  lemma {:induction false} DerivedCoordinatesFormRun(start: Coord, o: Orientation, size: nat)
    ensures IsRun(ShipCoordinates(start, o, size), o)
    decreases size
  {
    if size > 1 {
      var cs := ShipCoordinates(start, o, size);
      assert cs[1..] == ShipCoordinates(Next(start, o), o, size - 1);
      DerivedCoordinatesFormRun(Next(start, o), o, size - 1);
    }
  }

  /** Conversely, every non-empty straight run is the derivation from its first square. */
  lemma {:induction false} RunIsDerived(cs: seq<Coord>, o: Orientation)
    requires |cs| > 0 && IsRun(cs, o)
    ensures cs == ShipCoordinates(cs[0], o, |cs|)
    decreases |cs|
  {
    if |cs| > 1 {
      RunIsDerived(cs[1..], o);
      var d := ShipCoordinates(cs[0], o, |cs|);
      assert d[1..] == ShipCoordinates(Next(cs[0], o), o, |cs| - 1);
      assert cs == [cs[0]] + cs[1..];
      assert d == [d[0]] + d[1..];
    }
  }

  /** A run lies on the board exactly when its last square does. */
  lemma RunFitsIffLastFits(b: Board, start: Coord, o: Orientation, size: nat)
    requires size > 0
    ensures AllInBounds(b, ShipCoordinates(start, o, size))
        <==> b.InBounds(ShipCoordinates(start, o, size)[size - 1])
  {
    var cs := ShipCoordinates(start, o, size);
    if b.InBounds(cs[size - 1]) {
      forall p | p in cs ensures b.InBounds(p) {
        var i :| 0 <= i < size && cs[i] == p;
      }
    }
  }

  /** The player's choice after an accepted placement. */
  datatype Decision = Confirm | Cancel

  /** One round of the placement prompt: the anchor square, the orientation and the
      choice made after an accepted placement (not asked for a refused one). */
  datatype Attempt = Attempt(start: Coord, orientation: Orientation, decision: Decision)

  /** The board and ship after one round, and whether the ship is now placed. */
  datatype AttemptResult = AttemptResult(board: Board, ship: Ship, placed: bool)

  /** One round of the placement loop for `ship`.  A refused placement changes
      nothing.  An accepted one records the squares on the ship and marks them on
      the board; a cancel then blanks them again and the round is repeated (the
      ship keeps the cancelled squares until a later round overwrites them). */
  function PlaceAttempt(b: Board, ship: Ship, a: Attempt): (r: AttemptResult)
    requires b.Valid()
    ensures r.board.Valid() && r.board.size == b.size && r.ship.size == ship.size
    ensures var cs := ShipCoordinates(a.start, a.orientation, ship.size);
      && (r.placed <==> IsValidPlacement(b, cs) && a.decision == Confirm)
      && (!IsValidPlacement(b, cs) ==> r.ship == ship)
      && (IsValidPlacement(b, cs) ==> r.ship == ship.(coordinates := cs))
      && (!r.placed ==> r.board == b)
      && (r.placed ==>
            && r.ship.coordinates == cs
            && (forall q :: q in cs ==> b.At(q) == Empty && r.board.At(q) == Occupied)
            && (forall q :: b.InBounds(q) && q !in cs ==> r.board.At(q) == b.At(q)))
  {
    var cs := ShipCoordinates(a.start, a.orientation, ship.size);
    if IsValidPlacement(b, cs) then
      var marked := PlaceShip(b, cs);
      if a.decision == Cancel then
        RemoveUndoesPlace(b, cs);
        AttemptResult(RemoveShip(marked, cs), ship.(coordinates := cs), false)
      else
        AttemptResult(marked, ship.(coordinates := cs), true)
    else
      AttemptResult(b, ship, false)
  }

  /** Board, fleet, and how many ships of the fleet are placed so far. */
  datatype Layout = Layout(board: Board, ships: seq<Ship>, placed: nat)

  /** The placement loop: ships are placed in fleet order, each taking prompt rounds
      until one is accepted and confirmed.  It stops when the fleet is placed or
      the answers run out. */
  function PlaceShips(b: Board, ships: seq<Ship>, placed: nat, attempts: seq<Attempt>): (r: Layout)
    requires b.Valid() && placed <= |ships|
    ensures r.board.Valid() && r.board.size == b.size
    ensures placed <= r.placed <= |ships|
    ensures Sizes(r.ships) == Sizes(ships)
    ensures r.ships[..placed] == ships[..placed]
    ensures attempts == [] ==> r == Layout(b, ships, placed)
    decreases |attempts|
  {
    if placed == |ships| || attempts == [] then Layout(b, ships, placed)
    else
      var a := PlaceAttempt(b, ships[placed], attempts[0]);
      PlaceShips(a.board, ships[placed := a.ship], if a.placed then placed + 1 else placed, attempts[1..])
  }

  /** During setup the board holds only blanks and intact ship squares. */
  ghost predicate OnlyBlankOrIntact(b: Board)
    requires b.Valid()
  {
    forall q :: b.InBounds(q) ==> b.At(q) == Empty || b.At(q) == Occupied
  }

  /** Each placed ship has as many squares as its length, in a straight run. */
  predicate PlacedShaped(ships: seq<Ship>, placed: nat)
    requires placed <= |ships|
  {
    forall i :: 0 <= i < placed ==>
      |ships[i].coordinates| == ships[i].size && IsStraight(ships[i].coordinates)
  }

  /** Every square of a placed ship is on the board and intact. */
  ghost predicate PlacedIntact(b: Board, ships: seq<Ship>, placed: nat)
    requires b.Valid() && placed <= |ships|
  {
    forall i, q :: 0 <= i < placed && q in ships[i].coordinates ==>
      b.InBounds(q) && b.At(q) == Occupied
  }

  /** Every intact square belongs to a placed ship. */
  ghost predicate IntactOwned(b: Board, ships: seq<Ship>, placed: nat)
    requires b.Valid() && placed <= |ships|
  {
    forall q :: b.InBounds(q) && b.At(q) == Occupied ==>
      exists i :: 0 <= i < placed && q in ships[i].coordinates
  }

  /** No two placed ships share a square. */
  ghost predicate PlacedApart(ships: seq<Ship>, placed: nat)
    requires placed <= |ships|
  {
    forall i, j, q :: 0 <= i < j < placed && q in ships[i].coordinates ==>
      q !in ships[j].coordinates
  }

  /** The setup invariant for the first `placed` ships of a fleet. */
  ghost predicate FleetLaid(b: Board, ships: seq<Ship>, placed: nat) {
    && b.Valid()
    && placed <= |ships|
    && OnlyBlankOrIntact(b)
    && PlacedShaped(ships, placed)
    && PlacedIntact(b, ships, placed)
    && IntactOwned(b, ships, placed)
    && PlacedApart(ships, placed)
  }

  /** A new player's blank board and unplaced fleet satisfy the setup invariant. */
  lemma NewPlayerFleetLaid(name: string, boardSize: nat, sizes: seq<nat>)
    ensures FleetLaid(NewPlayer(name, boardSize, sizes).board, NewPlayer(name, boardSize, sizes).ships, 0)
  {
  }

  /** The setup invariant looks only at the placed ships. */
  lemma FleetLaidDependsOnPlaced(b: Board, ships: seq<Ship>, ships': seq<Ship>, placed: nat)
    requires FleetLaid(b, ships, placed) && |ships'| == |ships|
    requires forall i :: 0 <= i < placed ==> ships'[i] == ships[i]
    ensures FleetLaid(b, ships', placed)
  {
    forall q | b.InBounds(q) && b.At(q) == Occupied
      ensures exists i :: 0 <= i < placed && q in ships'[i].coordinates
    {
      var i :| 0 <= i < placed && q in ships[i].coordinates;
      assert ships'[i] == ships[i];
    }
  }

  /** The ship being placed gets the squares `cs`; the others are unchanged. */
  function Commit(ships: seq<Ship>, placed: nat, cs: seq<Coord>): (r: seq<Ship>)
    requires placed < |ships|
    ensures |r| == |ships| && r[placed] == ships[placed].(coordinates := cs)
    ensures forall i :: 0 <= i < |ships| && i != placed ==> r[i] == ships[i]
  {
    ships[placed := ships[placed].(coordinates := cs)]
  }

  lemma ConfirmKeepsShaped(ships: seq<Ship>, placed: nat, cs: seq<Coord>)
    requires placed < |ships| && PlacedShaped(ships, placed)
    requires |cs| == ships[placed].size && IsStraight(cs)
    ensures PlacedShaped(Commit(ships, placed, cs), placed + 1)
  {
  }

  lemma ConfirmKeepsIntact(b: Board, ships: seq<Ship>, placed: nat, cs: seq<Coord>)
    requires b.Valid() && placed < |ships| && PlacedIntact(b, ships, placed)
    requires IsValidPlacement(b, cs)
    ensures PlacedIntact(PlaceShip(b, cs), Commit(ships, placed, cs), placed + 1)
  {
    var b' := PlaceShip(b, cs);
    var ships' := Commit(ships, placed, cs);
    forall i, q | 0 <= i < placed + 1 && q in ships'[i].coordinates
      ensures b'.InBounds(q) && b'.At(q) == Occupied
    {
      if i == placed {
        assert q in cs;
        assert b.InBounds(q);
      } else {
        assert q in ships[i].coordinates;
        assert b.InBounds(q) && b.At(q) == Occupied;
      }
      assert b'.size == b.size;
    }
  }

  lemma ConfirmKeepsOwned(b: Board, ships: seq<Ship>, placed: nat, cs: seq<Coord>)
    requires b.Valid() && placed < |ships| && IntactOwned(b, ships, placed)
    requires IsValidPlacement(b, cs)
    ensures IntactOwned(PlaceShip(b, cs), Commit(ships, placed, cs), placed + 1)
  {
    var b' := PlaceShip(b, cs);
    var ships' := Commit(ships, placed, cs);
    forall q | b'.InBounds(q) && b'.At(q) == Occupied
      ensures exists i :: 0 <= i < placed + 1 && q in ships'[i].coordinates
    {
      if q in cs {
        assert q in ships'[placed].coordinates;
      } else {
        assert b.At(q) == Occupied;
        var i :| 0 <= i < placed && q in ships[i].coordinates;
        assert ships'[i] == ships[i];
      }
    }
  }

  lemma ConfirmKeepsApart(b: Board, ships: seq<Ship>, placed: nat, cs: seq<Coord>)
    requires b.Valid() && placed < |ships| && PlacedApart(ships, placed)
    requires PlacedIntact(b, ships, placed) && IsValidPlacement(b, cs)
    ensures PlacedApart(Commit(ships, placed, cs), placed + 1)
  {
    var ships' := Commit(ships, placed, cs);
    forall i, j, q | 0 <= i < j < placed + 1 && q in ships'[i].coordinates
      ensures q !in ships'[j].coordinates
    {
      if j == placed {
        assert b.At(q) == Occupied;
      }
    }
  }

  /** Committing an accepted placement for the next ship extends the setup invariant to it. */
  lemma ConfirmKeepsFleetLaid(b: Board, ships: seq<Ship>, placed: nat, cs: seq<Coord>)
    requires FleetLaid(b, ships, placed) && placed < |ships|
    requires IsValidPlacement(b, cs) && |cs| == ships[placed].size && IsStraight(cs)
    ensures FleetLaid(PlaceShip(b, cs), Commit(ships, placed, cs), placed + 1)
  {
    ConfirmKeepsShaped(ships, placed, cs);
    ConfirmKeepsIntact(b, ships, placed, cs);
    ConfirmKeepsOwned(b, ships, placed, cs);
    ConfirmKeepsApart(b, ships, placed, cs);
  }

  /** One prompt round keeps the setup invariant. */
  lemma PlaceAttemptKeepsFleetLaid(b: Board, ships: seq<Ship>, placed: nat, a: Attempt)
    requires FleetLaid(b, ships, placed) && placed < |ships|
    ensures var r := PlaceAttempt(b, ships[placed], a);
      FleetLaid(r.board, ships[placed := r.ship], if r.placed then placed + 1 else placed)
  {
    var r := PlaceAttempt(b, ships[placed], a);
    if r.placed {
      var cs := ShipCoordinates(a.start, a.orientation, ships[placed].size);
      DerivedCoordinatesFormRun(a.start, a.orientation, ships[placed].size);
      ConfirmKeepsFleetLaid(b, ships, placed, cs);
      assert ships[placed := r.ship] == Commit(ships, placed, cs);
      assert r.board == PlaceShip(b, cs);
    } else {
      FleetLaidDependsOnPlaced(b, ships, ships[placed := r.ship], placed);
    }
  }

  /** The whole placement loop keeps the setup invariant. */
  lemma {:induction false} PlaceShipsKeepsFleetLaid(b: Board, ships: seq<Ship>, placed: nat, attempts: seq<Attempt>)
    requires FleetLaid(b, ships, placed)
    ensures var r := PlaceShips(b, ships, placed, attempts);
      FleetLaid(r.board, r.ships, r.placed)
    decreases |attempts|
  {
    if placed < |ships| && attempts != [] {
      var a := PlaceAttempt(b, ships[placed], attempts[0]);
      PlaceAttemptKeepsFleetLaid(b, ships, placed, attempts[0]);
      PlaceShipsKeepsFleetLaid(a.board, ships[placed := a.ship], if a.placed then placed + 1 else placed, attempts[1..]);
    }
  }

  /** The loop advances only through confirmed rounds.  Every ship it places got the
      squares of some confirmed answer, the ships after the one it stopped at are
      untouched, and an accepted, confirmed first answer places the current ship
      on exactly that answer's squares. */
  lemma {:induction false} PlaceShipsAdvances(b: Board, ships: seq<Ship>, placed: nat, attempts: seq<Attempt>)
    requires b.Valid() && placed <= |ships|
    ensures var r := PlaceShips(b, ships, placed, attempts);
      && (forall i :: placed <= i < r.placed ==>
            exists k :: 0 <= k < |attempts| && attempts[k].decision == Confirm
              && r.ships[i].coordinates == ShipCoordinates(attempts[k].start, attempts[k].orientation, ships[i].size))
      && (forall i :: r.placed < i < |ships| ==> r.ships[i] == ships[i])
      && (placed < |ships| && attempts != [] && PlaceAttempt(b, ships[placed], attempts[0]).placed ==>
            && r.placed > placed
            && r.ships[placed].coordinates == ShipCoordinates(attempts[0].start, attempts[0].orientation, ships[placed].size))
    decreases |attempts|
  {
    var r := PlaceShips(b, ships, placed, attempts);
    if placed < |ships| && attempts != [] {
      var a := PlaceAttempt(b, ships[placed], attempts[0]);
      var ships' := ships[placed := a.ship];
      var placed' := if a.placed then placed + 1 else placed;
      var rest := attempts[1..];
      PlaceShipsAdvances(a.board, ships', placed', rest);
      assert r == PlaceShips(a.board, ships', placed', rest);
      assert Sizes(ships') == Sizes(ships);
      forall i | placed <= i < r.placed
        ensures exists k :: 0 <= k < |attempts| && attempts[k].decision == Confirm
                  && r.ships[i].coordinates == ShipCoordinates(attempts[k].start, attempts[k].orientation, ships[i].size)
      {
        assert ships'[i].size == ships[i].size;
        if i < placed' {
          assert i == placed && a.placed;
          assert r.ships[..placed'] == ships'[..placed'];
          assert r.ships[i] == ships'[..placed'][i] == a.ship;
          assert attempts[0].decision == Confirm;
        } else {
          var k :| 0 <= k < |rest| && rest[k].decision == Confirm
                   && r.ships[i].coordinates == ShipCoordinates(rest[k].start, rest[k].orientation, ships'[i].size);
          assert rest[k] == attempts[k + 1];
        }
      }
      if a.placed {
        assert r.ships[..placed'] == ships'[..placed'];
        assert r.ships[placed] == ships'[..placed'][placed] == a.ship;
      }
    }
  }

  /** The loop over two runs of answers is the loop over the first run continued,
      from where it stopped, over the second.  In particular a refused or
      cancelled round does not end the loop: the next answer goes to the same ship. */
  lemma {:induction false} PlaceShipsAppend(b: Board, ships: seq<Ship>, placed: nat, xs: seq<Attempt>, ys: seq<Attempt>)
    requires b.Valid() && placed <= |ships|
    ensures var r := PlaceShips(b, ships, placed, xs);
      PlaceShips(b, ships, placed, xs + ys) == PlaceShips(r.board, r.ships, r.placed, ys)
    decreases |xs|
  {
    if xs != [] && placed < |ships| {
      assert (xs + ys)[0] == xs[0];
      assert (xs + ys)[1..] == xs[1..] + ys;
      var a := PlaceAttempt(b, ships[placed], xs[0]);
      PlaceShipsAppend(a.board, ships[placed := a.ship], if a.placed then placed + 1 else placed, xs[1..], ys);
    } else if xs == [] {
      assert xs + ys == ys;
    }
  }

  /** A round that does not place the ship leaves the loop on the same ship: the
      remaining answers are played from the board and fleet that round left. */
  lemma PlaceShipsRetries(b: Board, ships: seq<Ship>, placed: nat, a: Attempt, ys: seq<Attempt>)
    requires b.Valid() && placed < |ships|
    requires !PlaceAttempt(b, ships[placed], a).placed
    ensures var r := PlaceAttempt(b, ships[placed], a);
      PlaceShips(b, ships, placed, [a] + ys) == PlaceShips(r.board, ships[placed := r.ship], placed, ys)
  {
    var r := PlaceAttempt(b, ships[placed], a);
    assert PlaceShips(b, ships, placed, [a]) == Layout(r.board, ships[placed := r.ship], placed);
    PlaceShipsAppend(b, ships, placed, [a], ys);
  }

  /** Once every ship is placed, the board and the fleet agree. */
  lemma FleetLaidIsConsistent(b: Board, ships: seq<Ship>)
    requires FleetLaid(b, ships, |ships|)
    ensures Consistent(b, ships)
  {
  }

  /** Setting up a new player's fleet to the end leaves a well-formed player whose
      board and fleet agree, with every ship of its length, straight and apart
      from the others. */
  lemma SetupYieldsConsistentFleet(name: string, boardSize: nat, sizes: seq<nat>, attempts: seq<Attempt>)
    ensures var p := NewPlayer(name, boardSize, sizes);
      var r := PlaceShips(p.board, p.ships, 0, attempts);
      r.placed == |sizes| ==>
        && Consistent(r.board, r.ships)
        && Sizes(r.ships) == sizes
        && (forall i :: 0 <= i < |r.ships| ==>
              |r.ships[i].coordinates| == sizes[i] && IsStraight(r.ships[i].coordinates))
        && (forall i, j, q :: 0 <= i < j < |r.ships| && q in r.ships[i].coordinates ==>
              q !in r.ships[j].coordinates)
  {
    var p := NewPlayer(name, boardSize, sizes);
    NewPlayerFleetLaid(name, boardSize, sizes);
    PlaceShipsKeepsFleetLaid(p.board, p.ships, 0, attempts);
    var r := PlaceShips(p.board, p.ships, 0, attempts);
    if r.placed == |sizes| {
      FleetLaidIsConsistent(r.board, r.ships);
      forall i | 0 <= i < |r.ships| ensures r.ships[i].size == sizes[i] {
        assert Sizes(r.ships)[i] == r.ships[i].size;
      }
    }
  }

  /** The game's own placement test throws instead of refusing: a vertical ship of
      three anchored at "C:2" on a 4×4 board reaches row 4, which does not exist.
      The corrected test refuses the same placement, and accepts it on a 5×5 board. */
  lemma AsWrittenThrowsOnVerticalOverflow()
    ensures var b := CreateEmptyBoard(4);
      var cs := ShipCoordinates(ParseCoordinate("C:2"), Vertical, 3);
      && cs == [Coord(2, 2), Coord(3, 2), Coord(4, 2)]
      && IsValidPlacementAsWritten(b, cs) == Threw
      && !IsValidPlacement(b, cs)
      && IsValidPlacement(CreateEmptyBoard(5), cs)
  {
    var b := CreateEmptyBoard(4);
    var cs := ShipCoordinates(ParseCoordinate("C:2"), Vertical, 3);
    assert ParseCoordinate("C:2") == Coord(2, 2);
    assert cs == [Coord(2, 2), Coord(3, 2), Coord(4, 2)];
    assert cs[1..][1..] == [Coord(4, 2)];
    assert b.cells[2][2] == Empty && b.cells[3][2] == Empty;
    assert IsValidPlacementAsWritten(b, cs[1..][1..]) == Threw;
    assert Coord(4, 2) in cs;
  }
}

=== FILE: players.dfy ===
/**
 Ships, players and the start of a new match: a player record holds a name,
 the player's own board, the view of the enemy board, and the fleet.
 */
module Players {
  import opened Cells
  import opened Boards

  /** A ship of `size` squares; `coordinates` is empty until it is placed. */
  datatype Ship = Ship(size: nat, coordinates: seq<Coord>)

  /** One side of the match. */
  datatype Player = Player(name: string, board: Board, enemyBoard: Board, ships: seq<Ship>)

  /** Every square of every ship lies on `b`. */
  predicate FleetInBounds(b: Board, ships: seq<Ship>) {
    forall i, q :: 0 <= i < |ships| && q in ships[i].coordinates ==> b.InBounds(q)
  }

  /** Whether a fleet lies on a board depends only on the board's size. */
  lemma FleetInBoundsBySize(a: Board, b: Board, ships: seq<Ship>)
    requires a.size == b.size && FleetInBounds(a, ships)
    ensures FleetInBounds(b, ships)
  {
    forall i, q | 0 <= i < |ships| && q in ships[i].coordinates ensures b.InBounds(q) {
      assert a.InBounds(q);
    }
  }

  /** Both boards are square grids of one size and the fleet lies on them. */
  predicate WellFormed(p: Player) {
    && p.board.Valid()
    && p.enemyBoard.Valid()
    && p.enemyBoard.size == p.board.size
    && FleetInBounds(p.board, p.ships)
  }

  /** The board and the fleet tell the same story: every ship square is intact
      or hit, and every intact ship square belongs to some ship. */
  ghost predicate Consistent(b: Board, ships: seq<Ship>) {
    && b.Valid()
    && FleetInBounds(b, ships)
    && (forall i, q :: 0 <= i < |ships| && q in ships[i].coordinates ==>
          b.At(q) == Occupied || b.At(q) == Hit)
    && (forall q :: b.InBounds(q) && b.At(q) == Occupied ==>
          exists i :: 0 <= i < |ships| && q in ships[i].coordinates)
  }

  /** The ship lengths of a fleet, in order. */
  function Sizes(ships: seq<Ship>): seq<nat> {
    seq(|ships|, i requires 0 <= i < |ships| => ships[i].size)
  }

  /** Ship lengths used when the board size has no entry in the size table. */
  const DefaultShipSizes: seq<nat> := [4, 4]

  /** The fleet composition for a board size: the table's entry for that size, or
      the default fleet.  The table itself is configuration outside this model. */
  function ShipSizesFor(table: map<nat, seq<nat>>, boardSize: nat): seq<nat> {
    if boardSize in table then table[boardSize] else DefaultShipSizes
  }

  /** One unplaced ship per entry of `sizes`, in order. */
  function NewFleet(sizes: seq<nat>): (ships: seq<Ship>)
    ensures Sizes(ships) == sizes
    ensures forall i :: 0 <= i < |ships| ==> ships[i].coordinates == []
  {
    seq(|sizes|, i requires 0 <= i < |sizes| => Ship(sizes[i], []))
  }

  /** A player at the start of a match: two blank boards of the chosen size and an
      unplaced fleet of the chosen composition. */
  function NewPlayer(name: string, boardSize: nat, sizes: seq<nat>): (p: Player)
    ensures WellFormed(p) && p.name == name && p.board.size == boardSize
    ensures forall q :: p.board.InBounds(q) ==> p.board.At(q) == Empty && p.enemyBoard.At(q) == Empty
    ensures Sizes(p.ships) == sizes
    ensures forall i :: 0 <= i < |p.ships| ==> p.ships[i].coordinates == []
  {
    Player(name, CreateEmptyBoard(boardSize), CreateEmptyBoard(boardSize), NewFleet(sizes))
  }

  /** The two players of a new match, both with the fleet the size table gives for
      the board size. */
  function NewMatch(name1: string, name2: string, boardSize: nat, table: map<nat, seq<nat>>): (m: (Player, Player))
    ensures m.0.name == name1 && m.1.name == name2
    ensures WellFormed(m.0) && WellFormed(m.1)
    ensures m.0.board.size == boardSize && m.1.board.size == boardSize
    ensures Sizes(m.0.ships) == Sizes(m.1.ships)
    ensures boardSize !in table ==> Sizes(m.0.ships) == [4, 4]
    ensures boardSize in table ==> Sizes(m.0.ships) == table[boardSize]
    ensures forall q :: m.0.board.InBounds(q) ==> m.0.board.At(q) == Empty && m.0.enemyBoard.At(q) == Empty
    ensures forall q :: m.1.board.InBounds(q) ==> m.1.board.At(q) == Empty && m.1.enemyBoard.At(q) == Empty
    ensures forall i :: 0 <= i < |m.0.ships| ==> m.0.ships[i].coordinates == []
    ensures forall i :: 0 <= i < |m.1.ships| ==> m.1.ships[i].coordinates == []
  {
    var sizes := ShipSizesFor(table, boardSize);
    (NewPlayer(name1, boardSize, sizes), NewPlayer(name2, boardSize, sizes))
  }
}

=== FILE: titles.dfy ===
/**
 The registry of saved-session titles: an ordered list, oldest first, that
 keeps at most five titles.  Registering a title that is already listed
 either moves it to the end (overwrite) or is refused so that another title
 can be typed (new name).  When a match ends its title is taken off the list.
 */
module Titles {
  import opened Options

  /** Most titles the registry keeps. */
  const MaxTitles: nat := 5

  /** The answer to "this title exists". */
  datatype NameAction = Overwrite | NewName

  predicate NoDuplicates(s: seq<string>) {
    forall i, j :: 0 <= i < j < |s| ==> s[i] != s[j]
  }

  /** Position of the first occurrence of `x`, or -1 when there is none. */
  function IndexOf(s: seq<string>, x: string): (i: int)
    ensures -1 <= i < |s|
    ensures i == -1 <==> x !in s
    ensures 0 <= i ==> s[i] == x && x !in s[..i]
  {
    if s == [] then -1
    else if s[0] == x then 0
    else
      var j := IndexOf(s[1..], x);
      assert s == [s[0]] + s[1..];
      if j == -1 then -1
      else
        assert s[..j + 1] == [s[0]] + s[1..][..j];
        j + 1
  }

  /** The list without the element at position `i`. */
  function RemoveAt(s: seq<string>, i: nat): (r: seq<string>)
    requires i < |s|
    ensures |r| == |s| - 1
  {
    s[..i] + s[i + 1..]
  }

  /** The list with every occurrence of `x` dropped, order kept. */
  function Without(s: seq<string>, x: string): (r: seq<string>)
    ensures x !in r
    ensures forall t :: t in r <==> t in s && t != x
    ensures NoDuplicates(s) ==> NoDuplicates(r)
    ensures x !in s ==> r == s
  {
    if s == [] then []
    else
      var rest := Without(s[1..], x);
      assert s == [s[0]] + s[1..];
      if s[0] == x then rest
      else
        assert NoDuplicates(s) ==> s[0] !in s[1..];
        [s[0]] + rest
  }

  /** The tail of a duplicate-free list is duplicate-free and does not hold its head. */
  lemma NoDuplicatesTail(s: seq<string>)
    requires NoDuplicates(s) && |s| > 0
    ensures NoDuplicates(s[1..]) && s[0] !in s[1..]
  {
    var t := s[1..];
    forall i, j | 0 <= i < j < |t| ensures t[i] != t[j] {
      assert t[i] == s[i + 1] && t[j] == s[j + 1];
    }
    forall k | 0 <= k < |t| ensures t[k] != s[0] {
      assert t[k] == s[k + 1];
    }
  }

  /** Removing the first occurrence of a title from a duplicate-free list removes it altogether. */
  lemma {:induction false} RemoveFirstIsWithout(s: seq<string>, x: string)
    requires NoDuplicates(s) && x in s
    ensures RemoveAt(s, IndexOf(s, x)) == Without(s, x)
  {
    var t := s[1..];
    assert s == [s[0]] + t;
    NoDuplicatesTail(s);
    if s[0] != x {
      assert x in t;
      RemoveFirstIsWithout(t, x);
      var j := IndexOf(t, x);
      assert IndexOf(s, x) == j + 1;
      calc {
        RemoveAt(s, j + 1);
        s[..j + 1] + s[j + 2..];
        { assert s[..j + 1] == [s[0]] + t[..j]; assert s[j + 2..] == t[j + 1..]; }
        [s[0]] + (t[..j] + t[j + 1..]);
        [s[0]] + Without(t, x);
      }
    } else {
      assert IndexOf(s, x) == 0;
      assert RemoveAt(s, 0) == t;
    }
  }

  /** The registry after typing `title` (index.ts, title prompt).  `None` means the
      title is listed and the player chose to type another: nothing is stored and
      the prompt repeats.  Otherwise an existing entry is removed, the title is
      appended, and the oldest entry is evicted if the list grew past the limit. */
  function Register(titles: seq<string>, title: string, action: NameAction): (r: Option<seq<string>>)
    ensures r.None? <==> title in titles && action == NewName
    ensures r.Some? ==> |r.value| > 0 && r.value[|r.value| - 1] == title
    ensures r.Some? ==> forall t :: t in r.value ==> t in titles || t == title
    ensures r.Some? && |titles| <= MaxTitles ==> |r.value| <= MaxTitles
    ensures r.Some? ==> |r.value| <= |titles| + 1
  {
    var i := IndexOf(titles, title);
    if i != -1 && action == NewName then None
    else
      var kept := if i != -1 then RemoveAt(titles, i) else titles;
      var pushed := kept + [title];
      Some(if |pushed| > MaxTitles then pushed[1..] else pushed)
  }

  /** Registering keeps the other titles in their order: the result is the old list
      without the title, less its oldest entry when the limit is exceeded, followed
      by the title. */
  lemma RegisterKeepsOrder(titles: seq<string>, title: string, action: NameAction)
    requires NoDuplicates(titles) && Register(titles, title, action).Some?
    ensures var w := Without(titles, title);
      var r := Register(titles, title, action).value;
      && (|w| < MaxTitles ==> r == w + [title])
      && (|w| >= MaxTitles ==> r == w[1..] + [title])
  {
    if title in titles {
      RemoveFirstIsWithout(titles, title);
    }
    var w := Without(titles, title);
    if |w| >= MaxTitles {
      assert (w + [title])[1..] == w[1..] + [title];
    }
  }

  /** A duplicate-free registry stays duplicate-free, so the new title appears in it
      exactly once, at the end. */
  lemma RegisterKeepsTitlesUnique(titles: seq<string>, title: string, action: NameAction)
    requires NoDuplicates(titles) && Register(titles, title, action).Some?
    ensures var r := Register(titles, title, action).value;
      && NoDuplicates(r)
      && r[|r| - 1] == title
      && forall k :: 0 <= k < |r| - 1 ==> r[k] != title
  {
    RegisterKeepsOrder(titles, title, action);
    var w := Without(titles, title);
    var r := Register(titles, title, action).value;
    var kept := if |w| >= MaxTitles then w[1..] else w;
    assert r == kept + [title];
    assert forall k :: 0 <= k < |kept| ==> kept[k] in w;
  }

  /** A typed title and the answer to "this title exists", if it was asked. */
  datatype Answer = Answer(title: string, action: NameAction)

  /** The accepted answer's position among the answers, its title, and the
      registry stored for it. */
  datatype Chosen = Chosen(index: nat, title: string, titles: seq<string>)

  /** The registry refuses this answer and asks again (see `Register`). */
  predicate Refused(titles: seq<string>, a: Answer) {
    a.title in titles && a.action == NewName
  }

  /** The title prompt loop: the first answer the registry accepts decides the
      title and the stored list; refused answers store nothing.  `None` when every
      answer was refused. */
  function ChooseTitle(titles: seq<string>, answers: seq<Answer>): (r: Option<Chosen>)
    ensures r.None? <==> forall k :: 0 <= k < |answers| ==> Refused(titles, answers[k])
    ensures r.Some? ==>
      && r.value.index < |answers|
      && (forall j :: 0 <= j < r.value.index ==> Refused(titles, answers[j]))
      && r.value.title == answers[r.value.index].title
      && Register(titles, r.value.title, answers[r.value.index].action) == Some(r.value.titles)
  {
    if answers == [] then None
    else if !Refused(titles, answers[0]) then
      Some(Chosen(0, answers[0].title, Register(titles, answers[0].title, answers[0].action).value))
    else
      var rest := ChooseTitle(titles, answers[1..]);
      assert forall k :: 1 <= k < |answers| ==> answers[k] == answers[1..][k - 1];
      match rest
      case None => None
      case Some(c) => Some(c.(index := c.index + 1))
  }

  /** Taking a finished match's title off the registry.  The title must be listed:
      the game removes the entry at the title's position, and a missing title would
      make that position -1. */
  function RemoveTitle(titles: seq<string>, title: string): (r: seq<string>)
    requires title in titles
    ensures |r| == |titles| - 1
    ensures NoDuplicates(titles) ==> r == Without(titles, title)
  {
    assert NoDuplicates(titles) ==> RemoveAt(titles, IndexOf(titles, title)) == Without(titles, title) by {
      if NoDuplicates(titles) { RemoveFirstIsWithout(titles, title); }
    }
    RemoveAt(titles, IndexOf(titles, title))
  }
}
